=== FILE: README.md ===
# Array construction in pandas, modelled in Dafny

This project models the array-construction engine of pandas,
`pandas/core/construction.py`. The engine is the code behind `pd.array`, `Series(...)`
and `Index(...)` that decides which kind of array a constructor call
produces, and which failures raise and which fall back to a looser
representation. The model covers:

- `array`: refuses scalars. It resolves a string dtype through the
  extension registry and delegates extension dtypes to their own
  `_from_sequence`. Otherwise it dispatches on the category
  `lib.infer_dtype` assigns to the data. Mixed period frequencies, mixed
  interval closedness and mixed time zones fall back to a `PandasArray`.
  An explicit `datetime64[ns]`/`timedelta64[ns]` dtype gets a
  `DatetimeArray`/`TimedeltaArray`.
- `extract_array`: unboxes a Series or Index, and optionally unwraps a PandasArray.
- `sanitize_masked_array`: writes the fill value into every masked slot of an upcast copy.
- `sanitize_array`: routes the input by its shape (masked array, ndarray,
  extension array, list/tuple/set/view, range, scalar, other iterable). It
  then applies the dimension rule, the string-buffer guard and the
  interval/period upgrade of object results.
- `_sanitize_ndim` and `_maybe_repeat`: enforce one dimension and broadcast
  a single element to the index length.
- `_try_cast`: the ndarray fast path, delegation to extension
  constructors, object lists, integer validation, datetime heuristics and
  the error-recovery policy.

The numpy and cython routines the engine calls are fields of the `Foreign.Lib`
datatype. Each field is an uninterpreted total function, and a raised
exception is a `Failure`. `lib.infer_dtype` may raise too, for an object
it cannot iterate. The model therefore checks the routing and the
error policy, not numpy's arithmetic. Arrays are a sequence of `Value`s
with a dtype and a dimension count. A missing value is the `NA`
constructor, never a NaN. An `Index` is represented by its length, the
only thing the engine reads from it. Three ways of building an object
array are defined in the model rather than left opaque, because each only
repackages its input. `np.array(arr, dtype=object)` in `_try_cast`'s
fallback is `Cast.ObjectArrayOf`. `construct_1d_object_array_from_listlike`
is `Cast.ObjectArrayFromList`. `np.array(data, dtype=object)` in the string
guard is `Sanitize.ObjectArrayOfData`.

Files, one module each: `types.dfy` (data model), `dtypes.dfy` (dtype
tests), `foreign.dfy` (collaborators), `text.dfy` (substring test),
`extract.dfy`, `inference.dfy` (`array`), `masked.dfy`, `cast.dfy`
(`_try_cast`), `dims.dfy`, `ranges.dfy`, `sanitize.dfy`.

Four behaviours of the code are easy to misread, and the model follows
the code in each:

- `IncompatibleFrequency` and `OutOfBoundsDatetime` are subclasses of
  `ValueError` in pandas. The comment at `_try_cast`'s handler says an
  out-of-bounds datetime should "always raise", but that holds only inside
  `_try_cast`. `array`'s datetime branch catches it and returns a PandasArray
  (`Inference.OutOfBoundsDatetimeFallsBackInInference`).
  `sanitize_array`'s float-to-integer path catches it and keeps the float
  buffer (`Sanitize.RefusedIntegerCastKeepsFloats`). Only `_try_cast`
  itself always re-raises it.
- An unordered set is refused only when it is non-empty. An empty `set()`
  fails the `len(data) > 0` guard and is read as an empty list
  (`Sanitize.ContainersReadAsLists`).
- The string-buffer guard turns every numpy string buffer built from
  non-scalar data into an object array. Whether all the data is missing
  decides only whether the data is first re-read at the requested dtype
  (`Sanitize.StrGuard`, `Sanitize.AllMissingStringListIsObjects`).
- When an extension dtype is requested or produced, neither the string
  guard nor the interval/period upgrade runs
  (`Sanitize.ExtensionDtypeSkipsPostProcessing`).

## Model

| member | source | states |
|---|---|---|
| Extract.ExtractArray | pandas/core/construction.py:414-420 | A Series or Index becomes its backing array. With `extract_numpy`, a PandasArray becomes its ndarray. Nothing else changes. The result is never boxed, and with extraction never a PandasArray. |
| Extract.ExtractIdempotent | pandas/core/construction.py:414-420 | Extracting twice gives the same as extracting once. |
| Extract.ExtractKeepsValues | pandas/core/construction.py:414-420 | Unwrapping never changes the values held. |
| Extract.ToNumpy | pandas/core/construction.py:417-418 | A PandasArray's ndarray is one-dimensional, holds the same values, and has the wrapped numpy dtype. |
| Extract.BoxedDtype | pandas/core/construction.py:305-307 | The dtype adopted from an ExtensionArray, or from a Series or Index over one, is that array's dtype. A Series or Index over a PandasArray reports the wrapped numpy dtype itself. |
| Inference.Classify | pandas/core/construction.py:320-358 | Each category is chosen exactly by its names. Period, interval, string, integer and boolean each have one name. Datetime and timedelta are chosen by the "datetime" and "timedelta" prefixes. Floating is "floating" or "mixed-integer-float". "Other" is exactly every remaining name. |
| Inference.ArrayDtype | pandas/core/construction.py:305-313 | No dtype remains only for data that is not a Series, Index or ExtensionArray. Without a dtype, a Series, Index or ExtensionArray lends its own (`BoxedDtype`). A dtype object is kept. A registered alias becomes its extension dtype. An unregistered alias is kept literally. |
| Inference.InferredConstruction | pandas/core/construction.py:319-358 | Period, interval and datetime data fall through exactly when their constructor raises the tolerated class (IncompatibleFrequency, ValueError, ValueError). Other documented categories go to their constructor unconditionally. "Other" falls through. |
| Inference.Array | pandas/core/construction.py:301-369 | Scalars raise ValueError whatever the dtype and copy. An extension dtype yields exactly its class's `_from_sequence(data, dtype, copy)`. With no dtype, an error from `infer_dtype` propagates. Otherwise the category decides, and fall-throughs give `PandasArray._from_sequence(data, None, copy)`. Among numpy dtypes, datetime64[ns] and timedelta64[ns] get their own classes and every other one gets a PandasArray. |
| Inference.InferredClassFollowsTable | pandas/core/construction.py:115-130 | If every constructor builds its own class, a successful `array` call without a dtype has read a category, and it yields the class in the documented scalar-type table. The exception is a PandasArray. It appears only when the table has no entry, or when the category's constructor raised exactly the tolerated class. |
| Inference.ExplicitNanosecondTemporalNeverPandas | pandas/core/construction.py:360-367 | A datetime64[ns] or timedelta64[ns] dtype, given as an object or as an unregistered alias, always yields a DatetimeArray or TimedeltaArray and never a PandasArray. |
| Inference.TolerantCategoriesFallBack | pandas/core/construction.py:321-342 | Mixed frequencies, mixed closedness and mixed time zones do not raise. The result is exactly `PandasArray._from_sequence(data, None, copy)`. |
| Inference.OutOfBoundsDatetimeFallsBackInInference | pandas/core/construction.py:336-342 | An OutOfBoundsDatetime from the DatetimeArray constructor is caught as a ValueError and produces the PandasArray fallback. |
| Masked.SanitizeMasked | pandas/core/construction.py:441-452 | The length and dimension are kept. With a masked slot, the result has the promoted dtype, the fill value at every masked slot and the upcast original value at every other slot. With none, it is an element-wise copy. |
| Masked.SofteningPreservesMissing | pandas/core/construction.py:445-449 | If the fill value is missing and the upcast keeps missing and present values apart, the result is missing exactly at the masked and already-missing slots. |
| Cast.Coerce | pandas/core/construction.py:675-693 | For an integer dtype, the validation only refuses and never changes the data. Any other dtype goes through the datetime heuristics, whose error propagates. With a datetime64 dtype (kind 'M') their result is final, and otherwise it is finished by `Finish`. A bare list survives coercion only through the datetime64 early return. |
| Cast.Finish | pandas/core/construction.py:692-693 | An ExtensionArray is kept as it is. Anything else becomes the ndarray `construct_1d_ndarray_preserving_na` builds, or raises its error. The result is never a bare list. |
| Cast.TryCast | pandas/core/construction.py:630-705 | The fast path returns the input itself. An extension dtype other than tz-aware datetime is built by its own class. A list with the object dtype keeps its items. Otherwise the coercion's result is returned. Its error propagates exactly when the error policy says so. Any other failure yields an object array of the original elements. |
| Cast.UntouchedBufferComesBack | pandas/core/construction.py:655-693 | A buffer with no dtype and no copy comes back unchanged, both when the fast path accepts it and when the datetime heuristics and `construct_1d_ndarray_preserving_na` hand it back. |
| Cast.OutOfBoundsAlwaysPropagates | pandas/core/construction.py:694-696 | An OutOfBoundsDatetime raised while coercing propagates for every value of `raise_cast_failure`. |
| Cast.RaiseFlagOnlyAddsFailures | pandas/core/construction.py:697-699 | The strict and lenient settings agree except where the lenient one returns the object-array fallback. |
| Cast.LenientFallbackKeepsElements | pandas/core/construction.py:697-704 | With no dtype, a ValueError other than OutOfBoundsDatetime, or a TypeError, whose message lacks "Cannot cast" never escapes. The result is an object array of exactly the original elements. |
| Cast.CannotCastAlwaysPropagates | pandas/core/construction.py:700-702 | An error whose message contains "Cannot cast" anywhere is raised even when failures are not to be raised. |
| Cast.DisallowedCastMessagesPropagate | pandas/core/construction.py:700-702 | An error whose message opens with "Cannot cast", whatever follows and whatever its class, reaches the caller for both values of `raise_cast_failure`. |
| Text.Contains | pandas/core/construction.py:700 | `t in s` holds exactly when `t` occurs in `s` at some index. |
| Dims.MaybeRepeat | pandas/core/construction.py:619-627 | One element with an index of length n ≠ 1 becomes n copies of that element. Otherwise the input is unchanged. Only the elements ever change. |
| Dims.MaybeRepeatIdempotent | pandas/core/construction.py:619-627 | Repeating a second time changes nothing. |
| Dims.MaybeRepeatFitsIndex | pandas/core/construction.py:624-626 | A one-element result meant for an index of length n has length n, with every entry equal to the original one. |
| Dims.SanitizeNdimStable | pandas/core/construction.py:576-578 | A one-dimensional result always passes, stays one-dimensional, and passing it again changes nothing. |
| Dims.SanitizeNdim | pandas/core/construction.py:567-596 | ndim 0 raises ValueError. ndim 1 applies the broadcast rule. ndim > 1 raises "Data must be 1-dimensional" for ndarray input, and otherwise re-reads the input tuple-safely, through the dtype's class for an object extension dtype. A success is never a bare list. |
| Ranges.RangeValues | pandas/core/construction.py:534-536 | A range materialises as the arithmetic progression from start, strictly on the near side of stop, ending at the first value that would not be. |
| Ranges.RangeLength | pandas/core/construction.py:536 | With a positive step and start ≤ stop, the number of values is ceil((stop - start) / step), as Python's `len(range(...))`. |
| Sanitize.Arange | pandas/core/construction.py:536 | `np.arange` for a range is a one-dimensional int64 buffer whose k-th value is start + k·step. |
| Sanitize.Unwrapped | pandas/core/construction.py:484-488 | A masked array is softened first, then Series, Index and PandasArray are unwrapped. No masked array or box remains. |
| Sanitize.Prepared | pandas/core/construction.py:490-493 | A zero-dimensional array becomes its item and lends its numpy dtype when none was given. A given dtype is never replaced, no zero-dimensional array remains, and every other input is left as unwrapped. |
| Sanitize.Route | pandas/core/construction.py:495-548 | An ndarray goes to `_try_cast` with the caller's raise flag. A float buffer meant for an integer dtype is instead cast strictly, and kept as it is when that raises a ValueError. An extension array is cast with `astype`, copied, or returned as is. A non-empty set or frozenset raises TypeError. Any other non-empty container without a dtype goes through `maybe_convert_platform` and the datetime heuristics and skips `_try_cast`. With a dtype, or when empty, it is cast as a list. A range is cast as its int64 buffer. A non-list-like input without an index raises ValueError, and with one it is repeated by `construct_1d_arraylike_from_scalar`. Any other iterable is cast as a list. |
| Sanitize.StrGuard | pandas/core/construction.py:599-616 | A unicode buffer from non-scalar data always becomes an object array. That array holds the data re-read at the requested dtype when some element is present, and the data's own elements when all are missing. A buffer of another dtype, or one from a scalar, is untouched. |
| Sanitize.MissingValuesStayMissing | pandas/core/construction.py:609-615 | A string buffer built from a list of missing values becomes an object array of exactly as many missing values; none of them is turned into text. |
| Sanitize.Upgrade | pandas/core/construction.py:557-562 | An object result inferred as interval or period is replaced by `array(result)` with the PandasArray unwrapped. An error from the inference or from `array` propagates. Any other result is kept. |
| Sanitize.Normalise | pandas/core/construction.py:550-562 | After routing, a zero-dimensional result raises. A multi-dimensional result from ndarray input raises "Data must be 1-dimensional". Once `_sanitize_ndim` succeeds, a result whose dtype or requested dtype is an extension dtype is final. Any other goes through the string guard, and then through the upgrade when it holds objects that no object or string dtype asked for. |
| Sanitize.SanitizeArray | pandas/core/construction.py:455-564 | Non-empty sets raise TypeError and non-list-likes without an index raise ValueError, whatever else is asked. An extension array input returns at once: `astype(dtype)` with a dtype, else a copy when `copy`, else itself. Every other input is prepared, dispatched by `Route` and then normalised by `Normalise`. |
| Sanitize.AllMissingStringListIsObjects | pandas/core/construction.py:612-615 | A non-empty list of missing values cast to a one-dimensional string buffer comes out as an object array of those same values. |
| Sanitize.ExtensionDtypeSkipsPostProcessing | pandas/core/construction.py:552-554 | Under an extension dtype, an ndarray's one-dimensional cast result is returned after broadcasting only. |
| Sanitize.ContainersReadAsLists | pandas/core/construction.py:518-523 | Tuples, dict_keys-like sets, values views and empty sets give exactly the result of the list of their items. |
| Sanitize.UncastBufferReturnedAsIs | pandas/core/construction.py:655-693 | A 1-D buffer that is neither a string nor an object buffer comes back identical when four things hold: the fast path accepts it or the casting collaborators leave it alone, no dtype is asked for, no copy, and no broadcast. |
| Sanitize.SingleElementBroadcast | pandas/core/construction.py:576-578 | With no dtype and no copy, a one-element buffer that is neither a string nor an object buffer, and that the fast path or the collaborators leave alone, becomes n copies of that element with the same dtype when the index has length n ≠ 1. Integer buffers are covered. |
| Sanitize.StringBroadcastRereadsData | pandas/core/construction.py:612-615 | A one-element string buffer is broadcast, and then the string guard rebuilds the object array from the data, which was never broadcast. The result has one element, whatever the index length. |
| Sanitize.UnmaskedArrayIsItsBuffer | pandas/core/construction.py:450-451 | A masked array with no masked slot gives the same result as its plain buffer. |
| Sanitize.RefusedIntegerCastKeepsFloats | pandas/core/construction.py:498-503 | A float buffer whose integer cast raises a ValueError, OutOfBoundsDatetime included, is kept and passed on to normalisation. |
| Sanitize.RangeIsInt64Buffer | pandas/core/construction.py:534-537 | With no dtype and no copy, and unless a one-element range is broadcast to an index of another length, a range gives the int64 buffer of its values. This holds whenever `maybe_cast_to_datetime` and `construct_1d_ndarray_preserving_na` hand that buffer back, since int64 never takes the fast path. |

## Left out

- The numpy and cython collaborators are uninterpreted functions of
  `Foreign.Lib`, because their bodies are not part of this model. These
  are `lib.infer_dtype`, `maybe_castable`, `maybe_cast_to_datetime`,
  `maybe_cast_to_integer_array`, `construct_1d_ndarray_preserving_na`,
  `construct_1d_arraylike_from_scalar`, `maybe_convert_platform`,
  `com.asarray_tuplesafe`, `maybe_upcast` (split into its promotion and
  its element conversion), `np.array(data, dtype=dtype)`, the registry,
  each class's `_from_sequence`, `period_array`, `IntervalArray`, and
  `ExtensionArray.astype`/`.copy`. The lemmas that need a fact about one
  of them (for example, that constructors build their own class) state it
  as a precondition.
- `ensure_wrapped_if_datetimelike`, `is_empty_data` and
  `create_series_with_explicit_dtype` are thin wrappers and Series glue,
  not part of the dispatch.
- `_sanitize_str_dtypes` is modelled only as far as its gate and its
  object result. How numpy stringifies values is floating-point library
  behaviour.
- Copying and aliasing: `copy=` is passed through to every collaborator,
  but object identity is not modelled. "Unchanged" means an equal value.
- Masked arrays: softening returns a plain buffer, not a MaskedArray with
  a softened mask. The mask is one bit per first-axis entry, and a shorter
  mask (numpy's `nomask`) leaves the remaining slots unmasked.
- Nested list input: `np.array(list, dtype=object)` in the `_try_cast`
  fallback is modelled as a one-dimensional object array of the list's
  items. numpy's shape discovery for equal-length nested lists is not
  modelled.
- `np.arange(..., dtype="int64")` is modelled with unbounded integers. The
  overflow of range bounds outside int64 is not modelled.
- Error messages keep only their fixed text. The scalar interpolated into
  `array`'s ValueError message is dropped.
- NaN and floating point: every missing marker is the single `NA` value.

=== FILE: cast.dfy ===
/** `_try_cast`: turn a list or ndarray into an array of the requested
    dtype, or into an object array of the original elements when the cast
    fails in a way the error policy tolerates. */
module Cast {
  import opened Types
  import opened Dtypes
  import opened Foreign
  import opened Text

  /** `np.array(arr, dtype=object)`: the original elements as Python
      objects, in the input's shape (a list is one-dimensional). */
  function ObjectArrayOf(arr: Arr): NdArray
    requires !arr.Ea?
  {
    match arr
    case Nd(a) => NdArray(ObjectDtype, a.values, a.ndim)
    case Plain(items) => NdArray(ObjectDtype, items, 1)
  }

  /** `construct_1d_object_array_from_listlike`: a one-dimensional object
      array whose entries are the list's items, nested list-likes included. */
  function ObjectArrayFromList(items: seq<Value>): NdArray {
    NdArray(ObjectDtype, items, 1)
  }

  /** The ndarray fast path: nothing to cast, nothing to copy. */
  predicate FastPath(lib: Lib, arr: Arr, dtype: Option<Dtype>, copy: bool) {
    arr.Nd? && lib.castable(arr.a.dtype) && !copy && dtype.None?
  }

  /** An extension dtype other than the time-zone aware datetime dtype,
      which is built by its own array class. */
  predicate DelegatedDtype(dtype: Option<Dtype>) {
    dtype.Some? && dtype.value.Ext? && !dtype.value.ext.DatetimeTZDtype?
  }

  /** Whatever is not an ndarray becomes an object array when the dtype is object. */
  predicate ObjectListPath(arr: Arr, dtype: Option<Dtype>) {
    dtype.Some? && IsObjectDtype(dtype.value) && !arr.Nd?
  }

  /** Hand a casting result that is not yet an extension array to
      `construct_1d_ndarray_preserving_na`. */
  function Finish(lib: Lib, sub: Arr, dtype: Option<Dtype>, copy: bool): (r: Result<Arr>)
    // An extension array is kept as it is ...
    ensures sub.Ea? ==> r == Success(sub)
    // ... anything else becomes the ndarray built from it, or raises.
    ensures !sub.Ea? ==>
              var nd := lib.preservingNa(sub, dtype, copy);
              r == (if nd.Success? then Success(Nd(nd.value)) else Failure(nd.error))
    ensures r.Success? ==> !r.value.Plain?
  {
    if sub.Ea? then
      Success(sub)
    else
      match lib.preservingNa(sub, dtype, copy)
      case Success(nd) => Success(Nd(nd))
      case Failure(err) => Failure(err)
  }

  /** The guarded part of `_try_cast`: an integer dtype is validated, any
      other goes through the datetime heuristics (and a datetime64 result is
      returned as is); then the result becomes an ndarray preserving
      missing values. */
  function Coerce(lib: Lib, arr: Arr, dtype: Option<Dtype>, copy: bool): (r: Result<Arr>)
    // The integer check never changes the data: it only may refuse it.
    ensures dtype.Some? && IsIntegerDtype(dtype.value) ==>
              r == (if lib.checkIntegerCast(arr, dtype.value).Some?
                    then Failure(lib.checkIntegerCast(arr, dtype.value).value)
                    else Finish(lib, arr, dtype, copy))
    // Any other dtype goes through the datetime heuristics; a datetime64
    // dtype takes their result as final, the rest is finished.
    ensures !(dtype.Some? && IsIntegerDtype(dtype.value)) ==>
              var dt := lib.castToDatetime(arr, dtype);
              && (dt.Failure? ==> r == Failure(dt.error))
              && (dt.Success? && dtype.Some? && Kind(dtype.value) == 'M' ==> r == dt)
              && (dt.Success? && !(dtype.Some? && Kind(dtype.value) == 'M') ==> r == Finish(lib, dt.value, dtype, copy))
    // Only a datetime64 dtype may leave the result a list.
    ensures r.Success? && r.value.Plain? ==> dtype.Some? && Kind(dtype.value) == 'M'
  {
    if dtype.Some? && IsIntegerDtype(dtype.value) then
      match lib.checkIntegerCast(arr, dtype.value)
      case Some(err) => Failure(err)
      case None => Finish(lib, arr, dtype, copy)
    else
      match lib.castToDatetime(arr, dtype)
      case Failure(err) => Failure(err)
      case Success(sub) =>
        if dtype.Some? && Kind(dtype.value) == 'M' then Success(sub) else Finish(lib, sub, dtype, copy)
  }

  /** The error policy: which exceptions raised while coercing reach the
      caller. An out-of-bounds datetime always does; so does anything that
      is neither a ValueError nor a TypeError; the others do when a dtype
      was requested with failures to be raised, or when the message reports
      a disallowed datetime-like cast. */
  predicate Propagates(err: Error, dtype: Option<Dtype>, raiseCastFailure: bool) {
    || err.cls == OutOfBoundsDatetime
    || !(IsInstance(err, ValueError) || IsInstance(err, TypeError))
    || (dtype.Some? && raiseCastFailure)
    || Contains(err.msg, CannotCast)
  }

  /** `_try_cast(arr, dtype, copy, raise_cast_failure)`. */
  function TryCast(lib: Lib, arr: Arr, dtype: Option<Dtype>, copy: bool, raiseCastFailure: bool): (r: Result<Arr>)
    requires !arr.Ea?
    // The fast path returns the very input.
    ensures FastPath(lib, arr, dtype, copy) ==> r == Success(arr)
    // An extension dtype is built by its own class.
    ensures !FastPath(lib, arr, dtype, copy) && DelegatedDtype(dtype) ==>
              var built := lib.fromSequence(ArrayType(dtype.value.ext), AsObj(arr), Some(Given(dtype.value)), copy);
              r == (if built.Success? then Success(Ea(built.value)) else Failure(built.error))
    // A list with the object dtype keeps its items as they are.
    ensures !FastPath(lib, arr, dtype, copy) && !DelegatedDtype(dtype) && ObjectListPath(arr, dtype) ==>
              r == Success(Nd(ObjectArrayFromList(Elements(arr))))
    // Otherwise: the coercion's result, its error when the policy says so,
    // or an object array of the original elements.
    ensures !FastPath(lib, arr, dtype, copy) && !DelegatedDtype(dtype) && !ObjectListPath(arr, dtype) ==>
              var attempt := Coerce(lib, arr, dtype, copy);
              && (attempt.Success? ==> r == attempt)
              && (attempt.Failure? && Propagates(attempt.error, dtype, raiseCastFailure) ==> r == attempt)
              && (attempt.Failure? && !Propagates(attempt.error, dtype, raiseCastFailure) ==>
                    r == Success(Nd(ObjectArrayOf(arr))))
  {
    if FastPath(lib, arr, dtype, copy) then
      Success(arr)
    else if DelegatedDtype(dtype) then
      match lib.fromSequence(ArrayType(dtype.value.ext), AsObj(arr), Some(Given(dtype.value)), copy)
      case Success(e) => Success(Ea(e))
      case Failure(err) => Failure(err)
    else if ObjectListPath(arr, dtype) then
      Success(Nd(ObjectArrayFromList(Elements(arr))))
    else
      match Coerce(lib, arr, dtype, copy)
      case Success(sub) => Success(sub)
      case Failure(err) =>
        if err.cls == OutOfBoundsDatetime then Failure(err)
        else if IsInstance(err, ValueError) || IsInstance(err, TypeError) then
          if dtype.Some? && raiseCastFailure then Failure(err)
          else if Contains(err.msg, CannotCast) then Failure(err)
          else Success(Nd(ObjectArrayOf(arr)))
        else Failure(err)
  }

  /** An out-of-bounds datetime raised while coercing reaches the caller
      whatever `raise_cast_failure` says. */
  lemma OutOfBoundsAlwaysPropagates(lib: Lib, arr: Arr, dtype: Option<Dtype>, copy: bool, err: Error)
    requires !arr.Ea? && !FastPath(lib, arr, dtype, copy) && !DelegatedDtype(dtype) && !ObjectListPath(arr, dtype)
    requires Coerce(lib, arr, dtype, copy) == Failure(err) && err.cls == OutOfBoundsDatetime
    ensures forall raiseCastFailure :: TryCast(lib, arr, dtype, copy, raiseCastFailure) == Failure(err)
  {
  }

  /** Raising cast failures only turns fallbacks into errors: both settings
      agree except where the lenient one returns an object array. */
  lemma RaiseFlagOnlyAddsFailures(lib: Lib, arr: Arr, dtype: Option<Dtype>, copy: bool)
    requires !arr.Ea?
    ensures var strict := TryCast(lib, arr, dtype, copy, true);
            var lenient := TryCast(lib, arr, dtype, copy, false);
            && (strict.Success? ==> strict == lenient)
            && (lenient.Failure? ==> strict == lenient)
            && (strict != lenient ==> strict.Failure? && lenient == Success(Nd(ObjectArrayOf(arr))))
  {
  }

  /** Without a requested dtype a ValueError or TypeError that does not
      report a disallowed cast never escapes: the result is then an object
      array holding exactly the original elements. */
  lemma LenientFallbackKeepsElements(lib: Lib, arr: Arr, copy: bool, raiseCastFailure: bool, err: Error)
    requires !arr.Ea? && !FastPath(lib, arr, None, copy)
    requires Coerce(lib, arr, None, copy) == Failure(err)
    requires err.cls in {ValueError, TypeError, IncompatibleFrequency} && !Contains(err.msg, CannotCast)
    ensures var r := TryCast(lib, arr, None, copy, raiseCastFailure);
            r.Success? && r.value.Nd? && r.value.a.dtype == ObjectDtype && Elements(r.value) == Elements(arr)
  {
  }

  /** A message reporting a disallowed datetime-like cast is raised even
      when failures are not to be raised. */
  lemma CannotCastAlwaysPropagates(lib: Lib, arr: Arr, dtype: Option<Dtype>, copy: bool, err: Error)
    requires !arr.Ea? && !FastPath(lib, arr, dtype, copy) && !DelegatedDtype(dtype) && !ObjectListPath(arr, dtype)
    requires Coerce(lib, arr, dtype, copy) == Failure(err)
    requires Contains(err.msg, CannotCast)
    ensures TryCast(lib, arr, dtype, copy, false) == Failure(err)
  {
  }

  /** Every message that opens with "Cannot cast", as the refusals of
      mismatched datetime-like casts do, is recognised wherever the marker
      is searched for, whatever follows it. */
  lemma DisallowedCastMessagesPropagate(lib: Lib, arr: Arr, dtype: Option<Dtype>, copy: bool,
                                                           cls: ErrorClass, detail: string)
    requires !arr.Ea? && !FastPath(lib, arr, dtype, copy) && !DelegatedDtype(dtype) && !ObjectListPath(arr, dtype)
    requires Coerce(lib, arr, dtype, copy) == Failure(Error(cls, CannotCast + detail))
    ensures forall raiseCastFailure :: TryCast(lib, arr, dtype, copy, raiseCastFailure) == Failure(Error(cls, CannotCast + detail))
  {
  }

  /** The casting collaborators have nothing to do for a buffer with no
      requested dtype: the datetime heuristics hand it back, and
      `construct_1d_ndarray_preserving_na` rebuilds it unchanged. */
  predicate KeepsBuffer(lib: Lib, b: NdArray) {
    && lib.castToDatetime(Nd(b), None) == Success(Nd(b))
    && lib.preservingNa(Nd(b), None, false) == Success(b)
  }

  /** Without a dtype or a copy, a buffer that the fast path accepts or the
      collaborators leave alone comes back unchanged, whichever way it goes. */
  lemma UntouchedBufferComesBack(lib: Lib, b: NdArray, raiseCastFailure: bool)
    requires lib.castable(b.dtype) || KeepsBuffer(lib, b)
    ensures TryCast(lib, Nd(b), None, false, raiseCastFailure) == Success(Nd(b))
  {
  }
}

=== FILE: dims.dfy ===
/** `_maybe_repeat` and `_sanitize_ndim`: insist on a one-dimensional
    result, broadcasting a single element to the index length. The index is
    represented by its length, the only thing read from it. */
module Dims {
  import opened Types
  import opened Dtypes
  import opened Foreign

  const ZeroDimMessage: string := "result should be arraylike with ndim > 0"
  const MultiDimMessage: string := "Data must be 1-dimensional"

  /** Whether `_maybe_repeat` broadcasts: one element, and an index of
      another length. */
  predicate Broadcasts(a: Arr, index: Option<nat>) {
    index.Some? && Len(a) == 1 && index.value != 1
  }

  /** `_maybe_repeat(arr, index)`. */
  function MaybeRepeat(a: Arr, index: Option<nat>): (r: Arr)
    // Broadcasting yields index-many copies of the single element ...
    ensures Broadcasts(a, index) ==>
              && Len(r) == index.value
              && (forall i | 0 <= i < Len(r) :: Elements(r)[i] == Elements(a)[0])
    // ... in a result that differs from the input in its elements only.
    ensures WithElements(r, Elements(a)) == a
    ensures !Broadcasts(a, index) ==> r == a
  {
    if Broadcasts(a, index) then
      var v := Elements(a)[0];
      WithElements(a, seq(index.value, _ => v))
    else
      a
  }

  /** Repeating is done once: a broadcast result never broadcasts again. */
  lemma MaybeRepeatIdempotent(a: Arr, index: Option<nat>)
    ensures MaybeRepeat(MaybeRepeat(a, index), index) == MaybeRepeat(a, index)
  {
    if Broadcasts(a, index) {
      assert !Broadcasts(MaybeRepeat(a, index), index);
    }
  }

  /** After `_maybe_repeat`, a result meant for an index matches its length
      unless it had some other length than one to begin with. */
  lemma MaybeRepeatFitsIndex(a: Arr, n: nat)
    requires Len(a) == 1
    ensures Len(MaybeRepeat(a, Some(n))) == n
    ensures forall i | 0 <= i < n :: Elements(MaybeRepeat(a, Some(n)))[i] == Elements(a)[0]
  {
  }

  /** `_sanitize_ndim(result, data, dtype, index)`. */
  function SanitizeNdim(lib: Lib, result: Arr, data: Obj, dtype: Option<Dtype>, index: Option<nat>): (r: Result<Arr>)
    // No dimension at all is an error.
    ensures Ndim(result) == 0 ==> r == Failure(Error(ValueError, ZeroDimMessage))
    // One dimension: the broadcast rule.
    ensures Ndim(result) == 1 ==> r == Success(MaybeRepeat(result, index))
    // More: an error for ndarray input ...
    ensures Ndim(result) > 1 && data.NdArr? ==> r == Failure(Error(ValueError, MultiDimMessage))
    // ... and otherwise the input re-read as a sequence of tuples.
    ensures Ndim(result) > 1 && !data.NdArr? && !(dtype.Some? && IsObjectDtype(dtype.value) && dtype.value.Ext?) ==>
              var t := lib.tupleSafe(data, dtype);
              r == (if t.Success? then Success(Nd(t.value)) else Failure(t.error))
    ensures Ndim(result) > 1 && !data.NdArr? && dtype.Some? && IsObjectDtype(dtype.value) && dtype.value.Ext? ==>
              var t := lib.tupleSafe(data, Some(Np(ObjectDtype)));
              (t.Failure? ==> r == Failure(t.error))
              && (t.Success? ==>
                    var e := lib.fromSequence(ArrayType(dtype.value.ext), NdArr(t.value), Some(Given(dtype.value)), false);
                    r == (if e.Success? then Success(Ea(e.value)) else Failure(e.error)))
    // Whatever succeeds is an array, never a bare list.
    ensures r.Success? ==> !r.value.Plain?
  {
    if Ndim(result) == 0 then
      Failure(Error(ValueError, ZeroDimMessage))
    else if Ndim(result) == 1 then
      Success(MaybeRepeat(result, index))
    else if data.NdArr? then
      Failure(Error(ValueError, MultiDimMessage))
    else if dtype.Some? && IsObjectDtype(dtype.value) && dtype.value.Ext? then
      var t :- lib.tupleSafe(data, Some(Np(ObjectDtype)));
      var e :- lib.fromSequence(ArrayType(dtype.value.ext), NdArr(t), Some(Given(dtype.value)), false);
      Success(Ea(e))
    else
      var t :- lib.tupleSafe(data, dtype);
      Success(Nd(t))
  }

  /** A one-dimensional result passes `_sanitize_ndim` once and for all:
      sanitising what it returns again changes nothing. */
  lemma SanitizeNdimStable(lib: Lib, result: Arr, data: Obj, dtype: Option<Dtype>, index: Option<nat>)
    requires Ndim(result) == 1
    ensures SanitizeNdim(lib, result, data, dtype, index).Success?
    ensures var s := SanitizeNdim(lib, result, data, dtype, index).value;
            Ndim(s) == 1 && SanitizeNdim(lib, s, data, dtype, index) == Success(s)
  {
    MaybeRepeatIdempotent(result, index);
  }
}

=== FILE: dtypes.dfy ===
/** The dtype tests of `pandas.core.dtypes.common` that the engine branches
    on, stated through each dtype's numpy-style kind character. */
module Dtypes {
  import opened Types

  function NpKind(t: NpDtype): char {
    match t
    case IntDtype(_) => 'i'
    case UIntDtype(_) => 'u'
    case FloatDtype(_) => 'f'
    case ComplexDtype(_) => 'c'
    case BoolDtype => 'b'
    case ObjectDtype => 'O'
    case UnicodeDtype => 'U'
    case BytesDtype => 'S'
    case Datetime64(_) => 'M'
    case Timedelta64(_) => 'm'
    case VoidDtype => 'V'
  }

  /** `dtype.kind`. */
  function Kind(t: Dtype): char {
    match t
    case Np(np) => NpKind(np)
    case Ext(PandasDtype(np)) => NpKind(np)
    case Ext(DatetimeTZDtype(_)) => 'M'
    case Ext(Registered(_, _, k)) => k
  }

  /** `dtype.construct_array_type()`. */
  function ArrayType(t: ExtDtype): ArrayKind {
    match t
    case PandasDtype(_) => PandasArray
    case DatetimeTZDtype(_) => DatetimeArray
    case Registered(_, cls, _) => cls
  }

  /** `is_integer_dtype`: signed or unsigned integers, never timedelta. */
  predicate IsIntegerDtype(t: Dtype) {
    Kind(t) == 'i' || Kind(t) == 'u'
  }

  predicate IsFloatDtype(t: Dtype) {
    Kind(t) == 'f'
  }

  /** `is_object_dtype`: the numpy object dtype, bare or wrapped in a
      PandasDtype, the only object extension dtype this model reaches. */
  predicate IsObjectDtype(t: Dtype) {
    t == Np(ObjectDtype) || t == Ext(PandasDtype(ObjectDtype))
  }

  /** `is_string_dtype`: kinds O, S and U, except the period, interval and
      categorical dtypes. */
  predicate IsStringDtype(t: Dtype) {
    (Kind(t) == 'O' || Kind(t) == 'S' || Kind(t) == 'U')
    && !(t.Ext? && ArrayType(t.ext) in {PeriodArray, IntervalArray, Categorical})
  }

  predicate IsDatetime64NsDtype(t: Dtype) {
    t == Np(Datetime64(true)) || (t.Ext? && t.ext.DatetimeTZDtype?)
  }

  predicate IsTimedelta64NsDtype(t: Dtype) {
    t == Np(Timedelta64(true))
  }

  /** `issubclass(dtype.type, str)`: numpy's unicode dtype only. */
  predicate IsStrType(t: Dtype) {
    t == Np(UnicodeDtype)
  }
}

=== FILE: extract.dfy ===
/** `extract_array`: unbox a Series or Index to the array behind it, and
    optionally a PandasArray to the ndarray it wraps. */
module Extract {
  import opened Types

  /** `PandasArray.to_numpy()`: the wrapped ndarray, one-dimensional. */
  function ToNumpy(e: ExtArray): (r: NdArray)
    requires e.cls == PandasArray
    ensures r.ndim == 1 && r.values == e.values
    ensures e.dtype.Ext? && e.dtype.ext.PandasDtype? ==> r.dtype == e.dtype.ext.np
  {
    var np := if e.dtype.Ext? && e.dtype.ext.PandasDtype? then e.dtype.ext.np else ObjectDtype;
    NdArray(np, e.values, 1)
  }

  /** `extract_array(obj, extract_numpy)`. */
  function ExtractArray(obj: Obj, extractNumpy: bool): (r: Obj)
    // A Series or Index is replaced by its backing array ...
    ensures obj.Boxed? ==>
              r == (if extractNumpy && obj.backing.cls == PandasArray
                    then NdArr(ToNumpy(obj.backing)) else ExtArr(obj.backing))
    // ... and with extraction on, a PandasArray by its ndarray.
    ensures obj.ExtArr? ==>
              r == (if extractNumpy && obj.e.cls == PandasArray then NdArr(ToNumpy(obj.e)) else obj)
    // Nothing else is touched.
    ensures !obj.Boxed? && !obj.ExtArr? ==> r == obj
    ensures !r.Boxed?
    ensures extractNumpy && r.ExtArr? ==> r.e.cls != PandasArray
  {
    var unboxed := if obj.Boxed? then ExtArr(obj.backing) else obj;
    if extractNumpy && unboxed.ExtArr? && unboxed.e.cls == PandasArray then
      NdArr(ToNumpy(unboxed.e))
    else
      unboxed
  }

  /** Extracting twice is extracting once. */
  lemma ExtractIdempotent(obj: Obj, extractNumpy: bool)
    ensures ExtractArray(ExtractArray(obj, extractNumpy), extractNumpy) == ExtractArray(obj, extractNumpy)
  {
  }

  /** Extraction never changes the values an array holds. */
  lemma ExtractKeepsValues(obj: Obj, extractNumpy: bool)
    requires obj.Boxed? || obj.ExtArr?
    ensures var r := ExtractArray(obj, extractNumpy);
            var e := if obj.Boxed? then obj.backing else obj.e;
            (r.ExtArr? && r.e.values == e.values) || (r.NdArr? && r.a.values == e.values)
  {
  }

  /** The dtype `array` adopts from a Series, Index or ExtensionArray:
      a Series or Index over a PandasArray reports the numpy dtype. */
  function BoxedDtype(obj: Obj): (r: Dtype)
    requires obj.Boxed? || obj.ExtArr?
    ensures obj.ExtArr? ==> r == obj.e.dtype
    ensures obj.Boxed? && obj.backing.cls != PandasArray ==> r == obj.backing.dtype
    ensures obj.Boxed? && obj.backing.cls == PandasArray && obj.backing.dtype.Ext? && obj.backing.dtype.ext.PandasDtype? ==>
              r == Np(obj.backing.dtype.ext.np)
  {
    match obj
    case ExtArr(e) => e.dtype
    case Boxed(_, e) =>
      if e.cls == PandasArray && e.dtype.Ext? && e.dtype.ext.PandasDtype? then Np(e.dtype.ext.np) else e.dtype
  }
}

=== FILE: foreign.dfy ===
/** The collaborators the engine calls but does not define: cython routines,
    numpy casting helpers, the extension-dtype registry and the constructors
    of the concrete array classes. Each is an uninterpreted total function;
    a raised exception is a `Failure`. */
module Foreign {
  import opened Types

  datatype Lib = Lib(
    /** `lib.infer_dtype(values, skipna)`: a category name such as
        "integer", "mixed-integer-float", "datetime64" or "period", or the
        TypeError `list(value)` raises for an object that is not iterable. */
    inferDtype: (Obj, bool) -> Result<string>,
    /** `registry.find(alias)`. */
    registryFind: string -> Option<ExtDtype>,
    /** How numpy reads a string alias the registry does not know, if at all. */
    aliasDtype: string -> Option<NpDtype>,
    /** `cls._from_sequence(data, dtype=dtype, copy=copy)` of each array class. */
    fromSequence: (ArrayKind, Obj, Option<DtypeArg>, bool) -> Result<ExtArray>,
    /** `period_array(data, copy=copy)`. */
    periodArray: (Obj, bool) -> Result<ExtArray>,
    /** `IntervalArray(data, copy=copy)`. */
    intervalArray: (Obj, bool) -> Result<ExtArray>,
    /** `ExtensionArray.astype(dtype, copy=copy)`. */
    astype: (ExtArray, Dtype, bool) -> Result<ArrayLike>,
    /** `ExtensionArray.copy()`. */
    copyArray: ExtArray -> ExtArray,
    /** `maybe_castable(dtype)`: whether an ndarray of this dtype may skip casting. */
    castable: NpDtype -> bool,
    /** The dtype and fill value `maybe_upcast` promotes a masked array to. */
    promote: NpDtype -> (NpDtype, Value),
    /** One element converted by `astype` to the promoted dtype. */
    convert: (NpDtype, Value) -> Value,
    /** `maybe_cast_to_integer_array(arr, dtype)`, which only validates. */
    checkIntegerCast: (Arr, Dtype) -> Option<Error>,
    /** `maybe_cast_to_datetime(value, dtype)`. */
    castToDatetime: (Arr, Option<Dtype>) -> Result<Arr>,
    /** `construct_1d_ndarray_preserving_na(values, dtype, copy=copy)`. */
    preservingNa: (Arr, Option<Dtype>, bool) -> Result<NdArray>,
    /** `maybe_convert_platform(values)`. */
    convertPlatform: seq<Value> -> NdArray,
    /** `construct_1d_arraylike_from_scalar(value, length, dtype)`. */
    fromScalar: (Value, nat, Option<Dtype>) -> Result<ArrayLike>,
    /** `com.asarray_tuplesafe(values, dtype=dtype)`. */
    tupleSafe: (Obj, Option<Dtype>) -> Result<NdArray>,
    /** `np.array(data, dtype=dtype, copy=False)`. */
    asNumpy: (Obj, Option<Dtype>) -> Result<NdArray>
  )

  /** Every array constructor builds an array of its own class. */
  ghost predicate ConstructorsKeepClass(lib: Lib) {
    && (forall cls, data, dtype, copy ::
          lib.fromSequence(cls, data, dtype, copy).Success? ==>
            lib.fromSequence(cls, data, dtype, copy).value.cls == cls)
    && (forall data, copy ::
          lib.periodArray(data, copy).Success? ==> lib.periodArray(data, copy).value.cls == PeriodArray)
    && (forall data, copy ::
          lib.intervalArray(data, copy).Success? ==> lib.intervalArray(data, copy).value.cls == IntervalArray)
  }
}

=== FILE: inference.dfy ===
/** `pandas.array`: choose the array class for a sequence, from an explicit
    dtype or from the category `lib.infer_dtype` assigns to its elements,
    falling back to a PandasArray where a specialised constructor refuses
    mixed data. */
module Inference {
  import opened Types
  import opened Dtypes
  import opened Foreign
  import opened Extract

  /** The message of the ValueError raised for scalar input; the source
      also interpolates the scalar itself. */
  const ScalarMessage: string := "Cannot pass scalar to 'pandas.array'."

  /** The element categories the dispatcher distinguishes. */
  datatype Category =
    | PeriodCat
    | IntervalCat
    | DatetimeCat
    | TimedeltaCat
    | StringCat
    | IntegerCat
    | FloatingCat
    | BooleanCat
    | OtherCat

  /** How the `if`/`elif` chain reads an `infer_dtype` result. */
  function Classify(inferred: string): (c: Category)
    ensures c == DatetimeCat <==> "datetime" <= inferred
    ensures c == TimedeltaCat <==> "timedelta" <= inferred
    ensures c == FloatingCat <==> inferred == "floating" || inferred == "mixed-integer-float"
    ensures c == PeriodCat <==> inferred == "period"
    ensures c == IntervalCat <==> inferred == "interval"
    ensures c == StringCat <==> inferred == "string"
    ensures c == IntegerCat <==> inferred == "integer"
    ensures c == BooleanCat <==> inferred == "boolean"
    // Everything else, "mixed" and "empty" among them, reaches no constructor.
    ensures c == OtherCat <==>
              && inferred !in {"period", "interval", "string", "integer", "floating", "mixed-integer-float", "boolean"}
              && !("datetime" <= inferred) && !("timedelta" <= inferred)
  {
    assert "datetime"[0] == 'd' && "timedelta"[0] == 't' && "interval"[0] == 'i';
    if inferred == "period" then PeriodCat
    else if inferred == "interval" then IntervalCat
    else if "datetime" <= inferred then DatetimeCat
    else if "timedelta" <= inferred then TimedeltaCat
    else if inferred == "string" then StringCat
    else if inferred == "integer" then IntegerCat
    else if inferred == "floating" || inferred == "mixed-integer-float" then FloatingCat
    else if inferred == "boolean" then BooleanCat
    else OtherCat
  }

  /** The scalar-type table of the `array` documentation: the array class a
      sequence of each category should become. */
  function DocumentedClass(c: Category): Option<ArrayKind> {
    match c
    case IntervalCat => Some(IntervalArray)
    case PeriodCat => Some(PeriodArray)
    case DatetimeCat => Some(DatetimeArray)
    case TimedeltaCat => Some(TimedeltaArray)
    case IntegerCat => Some(IntegerArray)
    case FloatingCat => Some(FloatingArray)
    case StringCat => Some(StringArray)
    case BooleanCat => Some(BooleanArray)
    case OtherCat => None
  }

  /** The categories whose constructor may refuse mixed data, and the
      exception class that refusal raises. */
  function ToleratedFailure(c: Category): Option<ErrorClass> {
    match c
    case PeriodCat => Some(IncompatibleFrequency)
    case IntervalCat => Some(ValueError)
    case DatetimeCat => Some(ValueError)
    case _ => None
  }

  /** The data `array` works on: Series, Index and PandasArray unwrapped. */
  function ArrayData(data: Obj): Obj {
    ExtractArray(data, true)
  }

  /** The dtype `array` works with: the data's own dtype when none is given
      and the data is a Series, Index or ExtensionArray; then a string alias
      looked up in the registry and kept literally when it is not found. */
  function ArrayDtype(lib: Lib, data: Obj, dtype: Option<DtypeArg>): (r: Option<DtypeArg>)
    ensures r.None? <==> dtype.None? && !data.Boxed? && !data.ExtArr?
    // Without a dtype, a Series, Index or ExtensionArray lends its own.
    ensures dtype.None? && (data.Boxed? || data.ExtArr?) ==> r == Some(Given(BoxedDtype(data)))
    ensures dtype.Some? && dtype.value.Given? ==> r == dtype
    ensures dtype.Some? && dtype.value.Alias? && lib.registryFind(dtype.value.name).None? ==> r == dtype
    ensures dtype.Some? && dtype.value.Alias? && lib.registryFind(dtype.value.name).Some? ==>
              r == Some(Given(Ext(lib.registryFind(dtype.value.name).value)))
  {
    var adopted: Option<DtypeArg> := if dtype.None? && (data.Boxed? || data.ExtArr?) then Some(Given(BoxedDtype(data))) else dtype;
    match adopted
    case Some(Alias(name)) =>
      (match lib.registryFind(name)
       case Some(ext) => Some(Given(Ext(ext)))
       case None => adopted)
    case _ => adopted
  }

  /** `is_extension_array_dtype` of a resolved dtype argument: an alias that
      survived the registry lookup is not one. */
  predicate IsExtensionArg(t: Option<DtypeArg>) {
    t.Some? && t.value.Given? && t.value.dtype.Ext?
  }

  predicate IsDatetime64NsArg(lib: Lib, t: Option<DtypeArg>) {
    t.Some? &&
    match t.value
    case Given(d) => IsDatetime64NsDtype(d)
    case Alias(name) => lib.aliasDtype(name) == Some(Datetime64(true))
  }

  predicate IsTimedelta64NsArg(lib: Lib, t: Option<DtypeArg>) {
    t.Some? &&
    match t.value
    case Given(d) => IsTimedelta64NsDtype(d)
    case Alias(name) => lib.aliasDtype(name) == Some(Timedelta64(true))
  }

  /** The constructor a category whose refusal is tolerated tries. */
  function TolerantAttempt(lib: Lib, data: Obj, c: Category, copy: bool): Result<ExtArray>
    requires ToleratedFailure(c).Some?
  {
    if c == PeriodCat then lib.periodArray(data, copy)
    else if c == IntervalCat then lib.intervalArray(data, copy)
    else lib.fromSequence(DatetimeArray, data, None, copy)
  }

  /** The construction attempted for a category when no dtype is given;
      `None` means the chain falls through to the code after it. */
  function InferredConstruction(lib: Lib, data: Obj, c: Category, copy: bool): (r: Option<Result<ExtArray>>)
    // A tolerated refusal falls through; every other outcome is final.
    ensures ToleratedFailure(c).Some? ==>
              var attempt := TolerantAttempt(lib, data, c, copy);
              r == (if attempt.Failure? && IsInstance(attempt.error, ToleratedFailure(c).value)
                    then None else Some(attempt))
    // The other documented categories go to their constructor unconditionally.
    ensures ToleratedFailure(c).None? && DocumentedClass(c).Some? ==>
              r == Some(lib.fromSequence(DocumentedClass(c).value, data, None, copy))
    ensures c == OtherCat ==> r.None?
  {
    match c
    case PeriodCat =>
      var p := lib.periodArray(data, copy);
      if p.Failure? && IsInstance(p.error, IncompatibleFrequency) then None else Some(p)
    case IntervalCat =>
      var i := lib.intervalArray(data, copy);
      if i.Failure? && IsInstance(i.error, ValueError) then None else Some(i)
    case DatetimeCat =>
      var d := lib.fromSequence(DatetimeArray, data, None, copy);
      if d.Failure? && IsInstance(d.error, ValueError) then None else Some(d)
    case TimedeltaCat => Some(lib.fromSequence(TimedeltaArray, data, None, copy))
    case StringCat => Some(lib.fromSequence(StringArray, data, None, copy))
    case IntegerCat => Some(lib.fromSequence(IntegerArray, data, None, copy))
    case FloatingCat => Some(lib.fromSequence(FloatingArray, data, None, copy))
    case BooleanCat => Some(lib.fromSequence(BooleanArray, data, None, copy))
    case OtherCat => None
  }

  /** `pandas.array(data, dtype, copy)`. */
  function Array(lib: Lib, data: Obj, dtype: Option<DtypeArg>, copy: bool): (r: Result<ExtArray>)
    // A scalar is refused whatever the dtype and copy flag.
    ensures IsScalar(data) ==> r == Failure(Error(ValueError, ScalarMessage))
    // An extension dtype is handed straight to its own constructor.
    ensures !IsScalar(data) && IsExtensionArg(ArrayDtype(lib, data, dtype)) ==>
              r == lib.fromSequence(ArrayType(ArrayDtype(lib, data, dtype).value.dtype.ext),
                                    ArrayData(data), ArrayDtype(lib, data, dtype), copy)
    // Without a dtype, the inferred category picks the constructor; a
    // tolerated refusal and an unknown category give a PandasArray.
    // Data `infer_dtype` cannot iterate raises its error.
    ensures !IsScalar(data) && ArrayDtype(lib, data, dtype).None? ==>
              var name := lib.inferDtype(ArrayData(data), true);
              && (name.Failure? ==> r == Failure(name.error))
              && (name.Success? ==>
                    var attempt := InferredConstruction(lib, ArrayData(data), Classify(name.value), copy);
                    r == (if attempt.Some? then attempt.value
                          else lib.fromSequence(PandasArray, ArrayData(data), None, copy)))
    // A numpy dtype: nanosecond datetimes and timedeltas get their own
    // classes, every other one a PandasArray.
    ensures !IsScalar(data) && ArrayDtype(lib, data, dtype).Some? && !IsExtensionArg(ArrayDtype(lib, data, dtype)) ==>
              var t := ArrayDtype(lib, data, dtype);
              r == lib.fromSequence(if IsDatetime64NsArg(lib, t) then DatetimeArray
                                    else if IsTimedelta64NsArg(lib, t) then TimedeltaArray
                                    else PandasArray,
                                    ArrayData(data), t, copy)
  {
    if IsScalar(data) then
      Failure(Error(ValueError, ScalarMessage))
    else
      var t := ArrayDtype(lib, data, dtype);
      var d := ArrayData(data);
      if IsExtensionArg(t) then
        lib.fromSequence(ArrayType(t.value.dtype.ext), d, t, copy)
      else if t.None? then
        var name :- lib.inferDtype(d, true);
        var attempt := InferredConstruction(lib, d, Classify(name), copy);
        if attempt.Some? then attempt.value else lib.fromSequence(PandasArray, d, None, copy)
      else if IsDatetime64NsArg(lib, t) then
        lib.fromSequence(DatetimeArray, d, t, copy)
      else if IsTimedelta64NsArg(lib, t) then
        lib.fromSequence(TimedeltaArray, d, t, copy)
      else
        lib.fromSequence(PandasArray, d, t, copy)
  }

  /** Without a dtype, a successful `array` builds the class the documented
      table names for the category, or a PandasArray, and the latter only
      when the table names none or the category's constructor refused the
      data in the tolerated way. */
  lemma InferredClassFollowsTable(lib: Lib, data: Obj, copy: bool)
    requires ConstructorsKeepClass(lib)
    requires !IsScalar(data) && !data.Boxed? && !data.ExtArr?
    requires Array(lib, data, None, copy).Success?
    ensures lib.inferDtype(ArrayData(data), true).Success?
    ensures var c := Classify(lib.inferDtype(ArrayData(data), true).value);
            var cls := Array(lib, data, None, copy).value.cls;
            && (DocumentedClass(c).None? ==> cls == PandasArray)
            && (DocumentedClass(c).Some? && ToleratedFailure(c).None? ==> cls == DocumentedClass(c).value)
            && (ToleratedFailure(c).Some? ==> cls == DocumentedClass(c).value || cls == PandasArray)
            // ... and the PandasArray only after the tolerated refusal.
            && (ToleratedFailure(c).Some? && cls == PandasArray ==>
                  var attempt := TolerantAttempt(lib, ArrayData(data), c, copy);
                  attempt.Failure? && IsInstance(attempt.error, ToleratedFailure(c).value))
  {
    var d := ArrayData(data);
    var c := Classify(lib.inferDtype(d, true).value);
    var attempt := InferredConstruction(lib, d, c, copy);
    if attempt.None? {
      assert Array(lib, data, None, copy) == lib.fromSequence(PandasArray, d, None, copy);
    } else if c == PeriodCat {
      assert attempt.value == lib.periodArray(d, copy);
    } else if c == IntervalCat {
      assert attempt.value == lib.intervalArray(d, copy);
    } else {
      assert attempt.value == lib.fromSequence(DocumentedClass(c).value, d, None, copy);
    }
  }

  /** An explicit nanosecond datetime64 or timedelta64 dtype, as a dtype
      object or as an alias numpy reads that way, always yields a
      DatetimeArray or TimedeltaArray and never a PandasArray. */
  lemma ExplicitNanosecondTemporalNeverPandas(lib: Lib, data: Obj, dtype: DtypeArg, copy: bool)
    requires ConstructorsKeepClass(lib)
    requires !IsScalar(data)
    requires dtype == Given(Np(Datetime64(true))) || dtype == Given(Np(Timedelta64(true)))
             || (dtype.Alias? && lib.registryFind(dtype.name).None?
                 && lib.aliasDtype(dtype.name) in {Some(Datetime64(true)), Some(Timedelta64(true))})
    requires Array(lib, data, Some(dtype), copy).Success?
    ensures Array(lib, data, Some(dtype), copy).value.cls != PandasArray
    ensures Array(lib, data, Some(dtype), copy).value.cls
            == (if IsDatetime64NsArg(lib, Some(dtype)) then DatetimeArray else TimedeltaArray)
  {
    var t := ArrayDtype(lib, data, Some(dtype));
    assert t == Some(dtype);
    assert !IsExtensionArg(t);
    if IsDatetime64NsArg(lib, t) {
      assert Array(lib, data, Some(dtype), copy) == lib.fromSequence(DatetimeArray, ArrayData(data), t, copy);
    } else {
      assert IsTimedelta64NsArg(lib, t);
      assert Array(lib, data, Some(dtype), copy) == lib.fromSequence(TimedeltaArray, ArrayData(data), t, copy);
    }
  }

  /** Mixed time zones, mixed interval closedness and mixed period
      frequencies never reach the caller of `array`: the result is then
      exactly the PandasArray built from the same data. */
  lemma TolerantCategoriesFallBack(lib: Lib, data: Obj, copy: bool)
    requires !IsScalar(data) && !data.Boxed? && !data.ExtArr?
    requires lib.inferDtype(ArrayData(data), true).Success?
    requires var d := ArrayData(data);
             var c := Classify(lib.inferDtype(d, true).value);
             || (c == PeriodCat && lib.periodArray(d, copy).Failure?
                 && lib.periodArray(d, copy).error.cls == IncompatibleFrequency)
             || (c == IntervalCat && lib.intervalArray(d, copy).Failure?
                 && IsInstance(lib.intervalArray(d, copy).error, ValueError))
             || (c == DatetimeCat && lib.fromSequence(DatetimeArray, d, None, copy).Failure?
                 && IsInstance(lib.fromSequence(DatetimeArray, d, None, copy).error, ValueError))
    ensures Array(lib, data, None, copy) == lib.fromSequence(PandasArray, ArrayData(data), None, copy)
  {
  }

  /** OutOfBoundsDatetime is a ValueError, so when the DatetimeArray
      constructor raises it during inference `array` falls back to a
      PandasArray instead of propagating it. */
  lemma OutOfBoundsDatetimeFallsBackInInference(lib: Lib, data: Obj, copy: bool)
    requires !IsScalar(data) && !data.Boxed? && !data.ExtArr?
    requires lib.inferDtype(ArrayData(data), true).Success?
    requires "datetime" <= lib.inferDtype(ArrayData(data), true).value
    requires lib.fromSequence(DatetimeArray, ArrayData(data), None, copy).Failure?
    requires lib.fromSequence(DatetimeArray, ArrayData(data), None, copy).error.cls == OutOfBoundsDatetime
    ensures Array(lib, data, None, copy) == lib.fromSequence(PandasArray, ArrayData(data), None, copy)
  {
  }
}

=== FILE: masked.dfy ===
/** `sanitize_masked_array`: soften a numpy masked array by writing a fill
    value into every masked slot of an upcast copy. The result is a plain
    buffer: once every masked slot holds the fill value, the mask carries
    nothing more. */
module Masked {
  import opened Types
  import opened Foreign

  /** Whether slot `i` is masked. A mask shorter than the data, numpy's
      `nomask` among them, leaves the remaining slots unmasked. */
  predicate MaskBit(mask: seq<bool>, i: int) {
    0 <= i < |mask| && mask[i]
  }

  /** `ma.getmaskarray(data).any()`. */
  predicate AnyMasked(data: NdArray, mask: seq<bool>) {
    exists i | 0 <= i < |data.values| :: MaskBit(mask, i)
  }

  /** `sanitize_masked_array(data)`. */
  function SanitizeMasked(lib: Lib, data: NdArray, mask: seq<bool>): (r: NdArray)
    ensures |r.values| == |data.values| && r.ndim == data.ndim
    // With a masked slot: the upcast dtype, the fill value in every masked
    // slot and the upcast original value in every other one.
    ensures AnyMasked(data, mask) ==>
              && r.dtype == lib.promote(data.dtype).0
              && (forall i | 0 <= i < |r.values| && MaskBit(mask, i) :: r.values[i] == lib.promote(data.dtype).1)
              && (forall i | 0 <= i < |r.values| && !MaskBit(mask, i) ::
                    r.values[i] == lib.convert(r.dtype, data.values[i]))
    // Without one: an element-wise copy.
    ensures !AnyMasked(data, mask) ==> r == data
  {
    if AnyMasked(data, mask) then
      var (upcast, fill) := lib.promote(data.dtype);
      var filled := seq(|data.values|, i requires 0 <= i < |data.values| =>
                          if MaskBit(mask, i) then fill else lib.convert(upcast, data.values[i]));
      NdArray(upcast, filled, data.ndim)
    else
      data
  }

  /** When the fill value is the missing marker and the upcast keeps
      missing and present values apart, the softened buffer is missing at
      exactly the masked slots and the slots that were missing already. */
  lemma SofteningPreservesMissing(lib: Lib, data: NdArray, mask: seq<bool>)
    requires lib.promote(data.dtype).1 == NA
    requires forall v :: lib.convert(lib.promote(data.dtype).0, v) == NA <==> v == NA
    ensures var r := SanitizeMasked(lib, data, mask);
            forall i | 0 <= i < |r.values| :: r.values[i] == NA <==> MaskBit(mask, i) || data.values[i] == NA
  {
    var r := SanitizeMasked(lib, data, mask);
    forall i | 0 <= i < |r.values|
      ensures r.values[i] == NA <==> MaskBit(mask, i) || data.values[i] == NA
    {
      if !AnyMasked(data, mask) {
        assert !MaskBit(mask, i);
      }
    }
  }
}

=== FILE: ranges.dfy ===
/** Materialising a Python `range` the way `np.arange(start, stop, step)`
    does. */
module Ranges {

  /** The values of `range(start, stop, step)`, in order. */
  function RangeValues(start: int, stop: int, step: int): (r: seq<int>)
    requires step != 0
    // An arithmetic progression from `start` ...
    ensures forall k | 0 <= k < |r| :: r[k] == start + k * step
    // ... that stays strictly on the near side of `stop` ...
    ensures forall k | 0 <= k < |r| :: if step > 0 then r[k] < stop else r[k] > stop
    // ... and ends at the first value that would not.
    ensures if step > 0 then start + |r| * step >= stop else start + |r| * step <= stop
    decreases if step > 0 then stop - start else start - stop
  {
    if (step > 0 && start < stop) || (step < 0 && start > stop) then
      var rest := RangeValues(start + step, stop, step);
      assert forall k | 0 <= k < |rest| :: rest[k] == start + (k + 1) * step by {
        forall k | 0 <= k < |rest| ensures rest[k] == start + (k + 1) * step {
          assert start + step + k * step == start + (k + 1) * step;
        }
      }
      assert start + step + |rest| * step == start + (|rest| + 1) * step;
      [start] + rest
    else
      []
  }

  /** The length of a range, Python's `len(range(start, stop, step))`. */
  lemma RangeLength(start: int, stop: int, step: int)
    requires step > 0 && start <= stop
    ensures |RangeValues(start, stop, step)| == (stop - start + step - 1) / step
  {
    var r := RangeValues(start, stop, step);
    var n := |r|;
    // n is the least count whose progression reaches stop.
    if n > 0 {
      assert r[n - 1] == start + (n - 1) * step < stop;
    }
    assert start + n * step >= stop;
    assert (n - 1) * step < stop - start <= n * step;
    DivBetween(stop - start + step - 1, step, n);
  }

  /** Integer division pinned between two consecutive multiples. */
  lemma DivBetween(x: int, d: int, n: int)
    requires d > 0 && n >= 0
    requires n * d <= x < (n + 1) * d
    ensures x / d == n
  {
    var q := x / d;
    assert q * d <= x < (q + 1) * d;
    LessFromProducts(q, n + 1, d);
    LessFromProducts(n, q + 1, d);
  }

  lemma LessFromProducts(a: int, b: int, d: int)
    requires d > 0 && a * d < b * d
    ensures a < b
  {
    assert (b - a) * d == b * d - a * d;
  }
}

=== FILE: sanitize.dfy ===
/** `sanitize_array`: route an input by its shape to the cast engine, then
    normalise the dimensionality, keep missing values out of numpy string
    buffers and upgrade object results holding intervals or periods. */
module Sanitize {
  import opened Types
  import opened Dtypes
  import opened Foreign
  import opened Extract
  import opened Inference
  import opened Masked
  import opened Cast
  import opened Dims
  import opened Ranges

  const IndexMessage: string := "index must be specified when data is not list-like"

  /** The TypeError message for an unordered set. */
  function UnorderedMessage(kind: ContainerKind): string {
    if kind == FrozenSet then "'frozenset' type is unordered" else "'set' type is unordered"
  }

  /** `np.arange(start, stop, step, dtype="int64")`. */
  function Arange(start: int, stop: int, step: int): (r: NdArray)
    requires step != 0
    ensures r.dtype == IntDtype(64) && r.ndim == 1
    ensures |r.values| == |RangeValues(start, stop, step)|
    ensures forall k | 0 <= k < |r.values| :: r.values[k] == Int(start + k * step)
  {
    var vs := RangeValues(start, stop, step);
    NdArray(IntDtype(64), seq(|vs|, k requires 0 <= k < |vs| => Int(vs[k])), 1)
  }

  /** The input once a masked array is softened and a Series, Index or
      PandasArray unwrapped. */
  function Unwrapped(lib: Lib, data: Obj): (r: Obj)
    requires data.Valid()
    ensures r.Valid() && !r.Masked? && !r.Boxed?
    ensures data.Masked? ==> r == NdArr(SanitizeMasked(lib, data.data, data.mask))
    ensures !data.Masked? ==> r == ExtractArray(data, true)
  {
    var soft := if data.Masked? then NdArr(SanitizeMasked(lib, data.data, data.mask)) else data;
    ExtractArray(soft, true)
  }

  /** A zero-dimensional array stands for its item, and lends its dtype
      when none is given. */
  function Prepared(lib: Lib, data: Obj, dtype: Option<Dtype>): (r: (Obj, Option<Dtype>))
    requires data.Valid()
    ensures r.0.Valid() && !r.0.Masked? && !r.0.Boxed?
    // No zero-dimensional array is left, and a given dtype is never replaced.
    ensures !(r.0.NdArr? && r.0.a.ndim == 0)
    ensures dtype.Some? ==> r.1 == dtype
    ensures var d := Unwrapped(lib, data);
            && (d.NdArr? && d.a.ndim == 0 ==>
                  && r.0 == Item(d.a.values[0])
                  && (dtype.None? ==> r.1 == Some(Np(d.a.dtype))))
            && (!(d.NdArr? && d.a.ndim == 0) ==> r == (d, dtype))
  {
    var d := Unwrapped(lib, data);
    if d.NdArr? && d.a.ndim == 0 then
      (Item(d.a.values[0]), if dtype.None? then Some(Np(d.a.dtype)) else dtype)
    else
      (d, dtype)
  }

  /** After the shape dispatch: an extension array returned as is, or a raw
      result still to be normalised, with the input as the rest of the
      function sees it (materialised as a list where the source does so). */
  datatype Routed = Returned(res: ArrayLike) | Continue(sub: Arr, seen: Obj)

  /** A raw result, or the exception raised instead, handed on for
      normalisation together with the input as seen. */
  function Continuing(sub: Result<Arr>, seen: Obj): Result<Routed> {
    match sub
    case Success(a) => Success(Continue(a, seen))
    case Failure(err) => Failure(err)
  }

  /** Whether an ndarray is a float buffer meant for an integer dtype,
      which is cast strictly because a NaN must not become garbage. */
  predicate FloatToInteger(a: NdArray, dtype: Option<Dtype>) {
    dtype.Some? && IsFloatDtype(Np(a.dtype)) && IsIntegerDtype(dtype.value)
  }

  /** The shape dispatch of `sanitize_array`. */
  function Route(lib: Lib, data: Obj, index: Option<nat>, dtype: Option<Dtype>, copy: bool, raiseCastFailure: bool): (r: Result<Routed>)
    requires data.Valid() && !data.Masked? && !data.Boxed?
    // An ndarray is cast; a float buffer meant for an integer dtype is cast
    // strictly and kept as it is when that raises a ValueError.
    ensures data.NdArr? && FloatToInteger(data.a, dtype) ==>
              var cast := TryCast(lib, Nd(data.a), dtype, copy, true);
              r == Continuing(if cast.Failure? && IsInstance(cast.error, ValueError) then Success(Nd(data.a)) else cast, data)
    ensures data.NdArr? && !FloatToInteger(data.a, dtype) ==>
              r == Continuing(TryCast(lib, Nd(data.a), dtype, copy, raiseCastFailure), data)
    // An extension array is cast, copied or returned as it is.
    ensures data.ExtArr? && dtype.Some? ==>
              var a := lib.astype(data.e, dtype.value, copy);
              r == (if a.Success? then Success(Returned(a.value)) else Failure(a.error))
    ensures data.ExtArr? && dtype.None? ==>
              r == Success(Returned(Ea(if copy then lib.copyArray(data.e) else data.e)))
    // A non-empty unordered set is refused.
    ensures data.Container? && |data.items| > 0 && data.kind in {Set, FrozenSet} ==>
              r == Failure(Error(TypeError, UnorderedMessage(data.kind)))
    // Any other non-empty container is read as a list: without a dtype it
    // bypasses `_try_cast` for the platform conversion and the datetime
    // heuristics ...
    ensures data.Container? && |data.items| > 0 && data.kind !in {Set, FrozenSet} && dtype.None? ==>
              r == Continuing(lib.castToDatetime(Nd(lib.convertPlatform(data.items)), None), Container(List, data.items))
    // ... and with a dtype, or when empty, it is cast as a list.
    ensures data.Container? && (|data.items| == 0 || (data.kind !in {Set, FrozenSet} && dtype.Some?)) ==>
              r == Continuing(TryCast(lib, Plain(data.items), dtype, copy, raiseCastFailure), Container(List, data.items))
    // A range is cast as its int64 buffer.
    ensures data.RangeObj? ==>
              r == Continuing(TryCast(lib, Nd(Arange(data.start, data.stop, data.step)), dtype, copy, raiseCastFailure), data)
    // A scalar needs an index to be repeated along.
    ensures data.Item? && index.None? ==> r == Failure(Error(ValueError, IndexMessage))
    ensures data.Item? && index.Some? ==> r == Continuing(lib.fromScalar(data.v, index.value, dtype), data)
    // Any other iterable is realised as a list and cast.
    ensures data.Iterable? ==>
              r == Continuing(TryCast(lib, Plain(data.items), dtype, copy, raiseCastFailure), Container(List, data.items))
    // Every list-like except an extension array is materialised as a list,
    // or an ndarray, before the rest of the function sees it.
    ensures r.Success? && r.value.Continue? && IsListLike(data) ==>
              r.value.seen.NdArr? || r.value.seen.RangeObj? || (r.value.seen.Container? && r.value.seen.kind == List)
    ensures r.Success? && r.value.Continue? ==> r.value.seen.Valid()
    ensures r.Success? && r.value.Returned? ==> data.ExtArr?
  {
    match data
    case NdArr(a) =>
      if FloatToInteger(a, dtype) then
        var cast := TryCast(lib, Nd(a), dtype, copy, true);
        Continuing(if cast.Failure? && IsInstance(cast.error, ValueError) then Success(Nd(a)) else cast, data)
      else
        Continuing(TryCast(lib, Nd(a), dtype, copy, raiseCastFailure), data)
    case ExtArr(e) =>
      if dtype.Some? then
        var a :- lib.astype(e, dtype.value, copy);
        Success(Returned(a))
      else
        Success(Returned(Ea(if copy then lib.copyArray(e) else e)))
    case Container(kind, items) =>
      var seen := Container(List, items);
      if |items| > 0 && kind in {Set, FrozenSet} then
        Failure(Error(TypeError, UnorderedMessage(kind)))
      else if |items| > 0 && dtype.None? then
        Continuing(lib.castToDatetime(Nd(lib.convertPlatform(items)), None), seen)
      else
        // A non-empty sequence with a dtype, or an empty container of any kind.
        Continuing(TryCast(lib, Plain(items), dtype, copy, raiseCastFailure), seen)
    case RangeObj(start, stop, step) =>
      Continuing(TryCast(lib, Nd(Arange(start, stop, step)), dtype, copy, raiseCastFailure), data)
    case Item(v) =>
      if index.None? then
        Failure(Error(ValueError, IndexMessage))
      else
        Continuing(lib.fromScalar(v, index.value, dtype), data)
    case Iterable(items) =>
      Continuing(TryCast(lib, Plain(items), dtype, copy, raiseCastFailure), Container(List, items))
  }

  /** `np.all(isna(data))`: every element missing (vacuously so when empty).
      `isna` of a `range` is a plain `False`, since a range is neither an
      array nor a list, so a range never counts as all missing. */
  predicate AllMissing(data: Obj) {
    match data
    case Item(v) => v == NA
    case NdArr(a) => forall i | 0 <= i < |a.values| :: a.values[i] == NA
    case Masked(a, _) => forall i | 0 <= i < |a.values| :: a.values[i] == NA
    case ExtArr(e) => forall i | 0 <= i < |e.values| :: e.values[i] == NA
    case Boxed(_, e) => forall i | 0 <= i < |e.values| :: e.values[i] == NA
    case Container(_, items) => forall i | 0 <= i < |items| :: items[i] == NA
    case Iterable(items) => forall i | 0 <= i < |items| :: items[i] == NA
    case RangeObj(_, _, _) => false
  }

  /** `np.array(data, dtype=object)`: the input's own elements as Python
      objects, in its shape (an opaque object gives a zero-dimensional
      array). */
  function ObjectArrayOfData(data: Obj): NdArray
    requires data.Valid()
  {
    match data
    case Item(v) => NdArray(ObjectDtype, [v], 0)
    case NdArr(a) => NdArray(ObjectDtype, a.values, a.ndim)
    case Masked(a, _) => NdArray(ObjectDtype, a.values, a.ndim)
    case ExtArr(e) => NdArray(ObjectDtype, e.values, 1)
    case Boxed(_, e) => NdArray(ObjectDtype, e.values, 1)
    case Container(_, items) => NdArray(ObjectDtype, items, 1)
    case Iterable(items) => NdArray(ObjectDtype, items, 1)
    case RangeObj(start, stop, step) => NdArray(ObjectDtype, Arange(start, stop, step).values, 1)
  }

  /** `_sanitize_str_dtypes`: a numpy string buffer built from non-scalar
      data is rebuilt as an object array, so that missing values are not
      turned into text. The data is first re-read at the requested dtype
      unless every element is missing. */
  function StrGuard(lib: Lib, result: ArrayLike, data: Obj, dtype: Option<Dtype>): (r: Result<ArrayLike>)
    requires data.Valid()
    // Only a string buffer built from non-scalar data is touched ...
    ensures !IsStrType(ArrDtype(result)) || IsScalar(data) ==> r == Success(result)
    // ... and it always becomes an object array.
    ensures IsStrType(ArrDtype(result)) && !IsScalar(data) ==> r.Success? ==> ArrDtype(r.value) == Np(ObjectDtype)
    // With something present, of the data re-read at the requested dtype;
    ensures IsStrType(ArrDtype(result)) && !IsScalar(data) && !AllMissing(data) ==>
              var a := lib.asNumpy(data, dtype);
              && (a.Failure? ==> r == Failure(a.error))
              && (a.Success? ==> r == Success(Nd(NdArray(ObjectDtype, a.value.values, a.value.ndim))))
    // with nothing present, of the data's own (missing) elements.
    ensures IsStrType(ArrDtype(result)) && !IsScalar(data) && AllMissing(data) ==>
              r == Success(Nd(ObjectArrayOfData(data)))
  {
    if IsStrType(ArrDtype(result)) && !IsScalar(data) then
      if AllMissing(data) then
        Success(Nd(ObjectArrayOfData(data)))
      else
        var a :- lib.asNumpy(data, dtype);
        Success(Nd(NdArray(ObjectDtype, a.values, a.ndim)))
    else
      Success(result)
  }

  /** Whether the object-result upgrade applies: the result holds objects
      although neither an object nor a string dtype was asked for. */
  predicate UpgradeCandidate(result: ArrayLike, dtype: Option<Dtype>) {
    IsObjectDtype(ArrDtype(result)) && !(dtype.Some? && (IsObjectDtype(dtype.value) || IsStringDtype(dtype.value)))
  }

  /** The object result re-inferred as an interval or period array. */
  function Upgrade(lib: Lib, result: ArrayLike): (r: Result<ArrayLike>)
    ensures var name := lib.inferDtype(AsObj(result), false);
            && (name.Failure? ==> r == Failure(name.error))
            && (name.Success? && name.value !in {"interval", "period"} ==> r == Success(result))
            && (name.Success? && name.value in {"interval", "period"} ==>
                  var e := Array(lib, AsObj(result), None, true);
                  && (e.Failure? ==> r == Failure(e.error))
                  && (e.Success? ==> r.Success? && AsObj(r.value) == ExtractArray(ExtArr(e.value), true)))
  {
    var inferred :- lib.inferDtype(AsObj(result), false);
    if inferred == "interval" || inferred == "period" then
      var e :- Array(lib, AsObj(result), None, true);
      if e.cls == PandasArray then Success(Nd(ToNumpy(e))) else Success(Ea(e))
    else
      Success(result)
  }

  /** Whether an extension dtype, requested or produced, exempts the result
      from the string guard and the upgrade. */
  predicate ExtensionInvolved(shaped: ArrayLike, dtype: Option<Dtype>) {
    ArrDtype(shaped).Ext? || (dtype.Some? && dtype.value.Ext?)
  }

  /** The normalisation after the dispatch. */
  function Normalise(lib: Lib, sub: Arr, seen: Obj, dtype: Option<Dtype>, index: Option<nat>): (r: Result<ArrayLike>)
    requires seen.Valid()
    // No dimension, or several dimensions from an ndarray, is an error.
    ensures Ndim(sub) == 0 ==> r == Failure(Error(ValueError, ZeroDimMessage))
    ensures Ndim(sub) > 1 && seen.NdArr? ==> r == Failure(Error(ValueError, MultiDimMessage))
    // Once one-dimensional, a result involving an extension dtype is final;
    // any other goes through the string guard and then, when it holds
    // objects nobody asked for, through the upgrade.
    ensures var s := SanitizeNdim(lib, sub, seen, dtype, index);
            && (s.Failure? ==> r == Failure(s.error))
            && (s.Success? && ExtensionInvolved(s.value, dtype) ==> r == Success(s.value))
            && (s.Success? && !ExtensionInvolved(s.value, dtype) ==>
                  var g := StrGuard(lib, s.value, seen, dtype);
                  && (g.Failure? ==> r == Failure(g.error))
                  && (g.Success? && UpgradeCandidate(g.value, dtype) ==> r == Upgrade(lib, g.value))
                  && (g.Success? && !UpgradeCandidate(g.value, dtype) ==> r == g))
  {
    var shaped :- SanitizeNdim(lib, sub, seen, dtype, index);
    if ExtensionInvolved(shaped, dtype) then
      Success(shaped)
    else
      var guarded :- StrGuard(lib, shaped, seen, dtype);
      if UpgradeCandidate(guarded, dtype) then Upgrade(lib, guarded) else Success(guarded)
  }

  /** `sanitize_array(data, index, dtype, copy, raise_cast_failure)`. */
  function SanitizeArray(lib: Lib, data: Obj, index: Option<nat>, dtype: Option<Dtype>, copy: bool, raiseCastFailure: bool): (r: Result<ArrayLike>)
    requires data.Valid()
    // Non-empty sets and frozensets are refused, whatever else is asked.
    ensures data.Container? && |data.items| > 0 && data.kind in {Set, FrozenSet} ==>
              r == Failure(Error(TypeError, UnorderedMessage(data.kind)))
    // A scalar, or any other object that is not list-like, is refused
    // without an index.
    ensures data.Item? && index.None? ==> r == Failure(Error(ValueError, IndexMessage))
    // An extension array, bare or in a Series or Index, skips normalisation.
    ensures (data.ExtArr? || data.Boxed?) && Unwrapped(lib, data).ExtArr? ==>
              var e := Unwrapped(lib, data).e;
              && (dtype.Some? ==> r == lib.astype(e, dtype.value, copy))
              && (dtype.None? ==> r == Success(Ea(if copy then lib.copyArray(e) else e)))
    // Every other input is dispatched on its shape and then normalised.
    ensures !Unwrapped(lib, data).ExtArr? ==>
              var p := Prepared(lib, data, dtype);
              var routed := Route(lib, p.0, index, p.1, copy, raiseCastFailure);
              && (routed.Failure? ==> r == Failure(routed.error))
              && (routed.Success? ==>
                    routed.value.Continue? && r == Normalise(lib, routed.value.sub, routed.value.seen, p.1, index))
  {
    var (d, t) := Prepared(lib, data, dtype);
    var routed :- Route(lib, d, index, t, copy, raiseCastFailure);
    match routed
    case Returned(a) => Success(a)
    case Continue(sub, seen) => Normalise(lib, sub, seen, t, index)
  }

  /** A tuple, a set-like view such as dict_keys, a dict's values view and
      an empty set of any kind are read exactly as the list of their items. */
  lemma ContainersReadAsLists(lib: Lib, kind: ContainerKind, items: seq<Value>, index: Option<nat>,
                              dtype: Option<Dtype>, copy: bool, raiseCastFailure: bool)
    requires kind !in {Set, FrozenSet} || |items| == 0
    ensures SanitizeArray(lib, Container(kind, items), index, dtype, copy, raiseCastFailure)
            == SanitizeArray(lib, Container(List, items), index, dtype, copy, raiseCastFailure)
  {
  }

  /** A one-dimensional buffer that needs no cast, by the fast path or
      because the collaborators leave it alone, comes back as the very same
      buffer when neither a dtype nor a copy is asked for and the index does
      not call for broadcasting. String and object buffers are excluded:
      the string guard and the upgrade rebuild those. */
  lemma UncastBufferReturnedAsIs(lib: Lib, b: NdArray, index: Option<nat>, raiseCastFailure: bool)
    requires b.ndim == 1 && (lib.castable(b.dtype) || KeepsBuffer(lib, b))
    requires b.dtype != UnicodeDtype && b.dtype != ObjectDtype
    requires !Broadcasts(Nd(b), index)
    ensures SanitizeArray(lib, NdArr(b), index, None, false, raiseCastFailure) == Success(Nd(b))
  {
  }

  /** A one-element buffer meant for an index of another length is
      repeated along it: [5] with an index of length 3 gives [5, 5, 5]. */
  lemma SingleElementBroadcast(lib: Lib, b: NdArray, n: nat, raiseCastFailure: bool)
    requires b.ndim == 1 && |b.values| == 1 && n != 1
    requires lib.castable(b.dtype) || KeepsBuffer(lib, b)
    requires b.dtype != UnicodeDtype && b.dtype != ObjectDtype
    ensures var r := SanitizeArray(lib, NdArr(b), Some(n), None, false, raiseCastFailure);
            && r.Success? && r.value.Nd? && r.value.a.dtype == b.dtype && r.value.a.ndim == 1
            && |r.value.a.values| == n
            && (forall i | 0 <= i < n :: r.value.a.values[i] == b.values[0])
  {
    MaybeRepeatFitsIndex(Nd(b), n);
  }

  /** A one-element string buffer is broadcast and then rebuilt from the
      data, which was never broadcast: the object array that comes back
      has the data's one element, whatever the index length. */
  lemma StringBroadcastRereadsData(lib: Lib, b: NdArray, n: nat, raiseCastFailure: bool)
    requires b.ndim == 1 && |b.values| == 1 && n != 1 && b.dtype == UnicodeDtype
    requires lib.castable(b.dtype) || KeepsBuffer(lib, b)
    requires lib.asNumpy(NdArr(b), None) == Success(b)
    requires var name := lib.inferDtype(NdArr(NdArray(ObjectDtype, b.values, 1)), false);
             name.Success? && name.value !in {"interval", "period"}
    ensures SanitizeArray(lib, NdArr(b), Some(n), None, false, raiseCastFailure)
            == Success(Nd(NdArray(ObjectDtype, b.values, 1)))
  {
    var objects := Nd(NdArray(ObjectDtype, b.values, 1));
    UntouchedBufferComesBack(lib, b, raiseCastFailure);
    assert Prepared(lib, NdArr(b), None) == (NdArr(b), None);
    assert Route(lib, NdArr(b), Some(n), None, false, raiseCastFailure) == Success(Continue(Nd(b), NdArr(b)));
    var shaped := MaybeRepeat(Nd(b), Some(n));
    assert SanitizeNdim(lib, Nd(b), NdArr(b), None, Some(n)) == Success(shaped);
    assert shaped.Nd? && shaped.a.dtype == UnicodeDtype;
    assert StrGuard(lib, shaped, NdArr(b), None) == Success(objects);
    assert Upgrade(lib, objects) == Success(objects);
    assert Normalise(lib, Nd(b), NdArr(b), None, Some(n)) == Success(objects);
  }

  /** A masked array with no masked slot is treated as its plain buffer. */
  lemma UnmaskedArrayIsItsBuffer(lib: Lib, b: NdArray, mask: seq<bool>, index: Option<nat>,
                                 dtype: Option<Dtype>, copy: bool, raiseCastFailure: bool)
    requires Masked(b, mask).Valid() && !AnyMasked(b, mask)
    ensures SanitizeArray(lib, Masked(b, mask), index, dtype, copy, raiseCastFailure)
            == SanitizeArray(lib, NdArr(b), index, dtype, copy, raiseCastFailure)
  {
  }

  /** When a float buffer cannot be cast to the requested integer dtype
      because of a ValueError, an OutOfBoundsDatetime among them, the
      buffer itself goes on to normalisation and nothing is raised there. */
  lemma RefusedIntegerCastKeepsFloats(lib: Lib, b: NdArray, index: Option<nat>, t: Dtype,
                                      copy: bool, raiseCastFailure: bool)
    requires b.ndim > 0 && IsFloatDtype(Np(b.dtype)) && IsIntegerDtype(t)
    requires TryCast(lib, Nd(b), Some(t), copy, true).Failure?
    requires IsInstance(TryCast(lib, Nd(b), Some(t), copy, true).error, ValueError)
    ensures SanitizeArray(lib, NdArr(b), index, Some(t), copy, raiseCastFailure)
            == Normalise(lib, Nd(b), NdArr(b), Some(t), index)
  {
  }

  /** Without a dtype, a range is the int64 buffer of its values, when the
      casting collaborators leave that buffer alone and the index does not
      broadcast. */
  lemma RangeIsInt64Buffer(lib: Lib, start: int, stop: int, step: int, index: Option<nat>, raiseCastFailure: bool)
    requires step != 0
    requires lib.castable(IntDtype(64)) || KeepsBuffer(lib, Arange(start, stop, step))
    requires !Broadcasts(Nd(Arange(start, stop, step)), index)
    ensures var r := SanitizeArray(lib, RangeObj(start, stop, step), index, None, false, raiseCastFailure);
            && r.Success? && r.value.Nd? && r.value.a.dtype == IntDtype(64)
            && |r.value.a.values| == |RangeValues(start, stop, step)|
            && (forall k | 0 <= k < |r.value.a.values| :: r.value.a.values[k] == Int(start + k * step))
  {
  }

  /** Missing values never become text: a string buffer built from a list
      of missing values comes back as an object array of those very
      values. */
  lemma MissingValuesStayMissing(lib: Lib, result: ArrayLike, items: seq<Value>, dtype: Option<Dtype>)
    requires IsStrType(ArrDtype(result))
    requires forall i | 0 <= i < |items| :: items[i] == NA
    ensures var r := StrGuard(lib, result, Container(List, items), dtype);
            && r.Success? && r.value.Nd? && r.value.a.dtype == ObjectDtype && r.value.a.ndim == 1
            && |r.value.a.values| == |items|
            && (forall i | 0 <= i < |r.value.a.values| :: r.value.a.values[i] == NA)
  {
  }

  /** A list of missing values asked to become strings gives an object
      array of those values, not a string buffer. */
  lemma AllMissingStringListIsObjects(lib: Lib, items: seq<Value>, copy: bool, raiseCastFailure: bool)
    requires |items| > 0 && forall i | 0 <= i < |items| :: items[i] == NA
    requires var c := TryCast(lib, Plain(items), Some(Np(UnicodeDtype)), copy, raiseCastFailure);
             c.Success? && c.value.Nd? && c.value.a.ndim == 1 && c.value.a.dtype == UnicodeDtype
    ensures SanitizeArray(lib, Container(List, items), None, Some(Np(UnicodeDtype)), copy, raiseCastFailure)
            == Success(Nd(NdArray(ObjectDtype, items, 1)))
  {
  }

  /** Under an extension dtype the cast result, once one-dimensional, is
      final: neither the string guard nor the interval/period upgrade
      touches it. */
  lemma ExtensionDtypeSkipsPostProcessing(lib: Lib, b: NdArray, index: Option<nat>, ext: ExtDtype,
                                          copy: bool, raiseCastFailure: bool)
    requires b.ndim > 0 && !IsFloatDtype(Np(b.dtype))
    requires var c := TryCast(lib, Nd(b), Some(Ext(ext)), copy, raiseCastFailure);
             c.Success? && Ndim(c.value) == 1
    ensures var c := TryCast(lib, Nd(b), Some(Ext(ext)), copy, raiseCastFailure);
            SanitizeArray(lib, NdArr(b), index, Some(Ext(ext)), copy, raiseCastFailure)
            == Success(MaybeRepeat(c.value, index))
  {
  }
}

=== FILE: text.dfy ===
/** Substring search, for the `"Cannot cast" in str(err)` test. */
module Text {

  /** `t` occurs in `s` starting at index `i`. */
  predicate OccursAt(s: string, t: string, i: int) {
    0 <= i && i + |t| <= |s| && s[i..i + |t|] == t
  }

  /** Python's `t in s` for strings. */
  function Contains(s: string, t: string): (b: bool)
    ensures b <==> exists i :: OccursAt(s, t, i)
    decreases |s|
  {
    if t <= s then
      assert OccursAt(s, t, 0);
      true
    else if |s| <= |t| then
      forall i ensures !OccursAt(s, t, i) {
        if 0 <= i && i + |t| <= |s| {
          assert s[i..i + |t|] == s[..|t|];
        }
      }
      false
    else
      var b := Contains(s[1..], t);
      if b then
        assert exists i :: OccursAt(s, t, i) by {
          var i :| OccursAt(s[1..], t, i);
          var here, there := s[i + 1..i + 1 + |t|], s[1..][i..i + |t|];
          forall j | 0 <= j < |t| ensures here[j] == there[j] {}
          assert here == there;
          assert OccursAt(s, t, i + 1);
        }
        true
      else
        forall i ensures !OccursAt(s, t, i) {
          if i == 0 && |t| <= |s| {
            assert s[i..i + |t|] == s[..|t|];
          } else if 0 < i && i + |t| <= |s| {
            var there, here := s[1..][i - 1..i - 1 + |t|], s[i..i + |t|];
            forall j | 0 <= j < |t| ensures there[j] == here[j] {}
            assert there == here;
            assert !OccursAt(s[1..], t, i - 1);
          }
        }
        false
  }

  /** The marker `_disallow_mismatched_datetimelike` puts in its message. */
  const CannotCast: string := "Cannot cast"
}

=== FILE: types.dfy ===
/** The data model of the array-construction engine: element values, numpy and
    extension dtypes, arrays, the Python objects a constructor can be handed,
    and the exceptions it can raise. */
module Types {

  /** One element of an array. Every missing-value marker (None, NaN, NaT,
      pd.NA) is the single constructor `NA`; `Object` stands for an arbitrary
      Python object that is neither a scalar nor list-like. */
  datatype Value =
    | NA
    | Int(i: int)
    | Float(x: real)
    | Bool(b: bool)
    | Str(s: string)
    | Timestamp(nanos: int, tz: string)
    | Timedelta(nanos: int)
    | Period(ordinal: int, freq: string)
    | Interval(left: Value, right: Value, closed: string)
    | Object(id: nat)

  /** The numpy dtypes the engine distinguishes. Datetime and timedelta carry
      whether their unit is nanoseconds. */
  datatype NpDtype =
    | IntDtype(bits: nat)
    | UIntDtype(bits: nat)
    | FloatDtype(bits: nat)
    | ComplexDtype(bits: nat)
    | BoolDtype
    | ObjectDtype
    | UnicodeDtype
    | BytesDtype
    | Datetime64(nanos: bool)
    | Timedelta64(nanos: bool)
    | VoidDtype

  /** The concrete array classes an extension dtype can construct. */
  datatype ArrayKind =
    | IntegerArray
    | FloatingArray
    | BooleanArray
    | StringArray
    | DatetimeArray
    | TimedeltaArray
    | IntervalArray
    | PeriodArray
    | Categorical
    | SparseArray
    | PandasArray
    | ThirdParty(name: string)

  /** Extension dtypes: the numpy-wrapping PandasDtype, the time-zone aware
      datetime dtype, and every other registered dtype with the array class it
      constructs and its numpy-style kind character. */
  datatype ExtDtype =
    | PandasDtype(np: NpDtype)
    | DatetimeTZDtype(tz: string)
    | Registered(name: string, cls: ArrayKind, kind: char)

  datatype Dtype = Np(np: NpDtype) | Ext(ext: ExtDtype)

  /** The `dtype` argument of `array`: a dtype object or a string alias. */
  datatype DtypeArg = Alias(name: string) | Given(dtype: Dtype)

  /** A numpy ndarray: its dtype, its entries along the first axis and its
      number of dimensions. A zero-dimensional array holds its item as the
      first entry. */
  datatype NdArray = NdArray(dtype: NpDtype, values: seq<Value>, ndim: nat)

  /** An ExtensionArray: the class that built it, its dtype (a naive
      DatetimeArray reports the numpy dtype datetime64[ns]) and its values. */
  datatype ExtArray = ExtArray(cls: ArrayKind, dtype: Dtype, values: seq<Value>)

  datatype BoxKind = Series | Index

  /** The built-in containers that `sanitize_array` tells apart. `OtherSet`
      is any other `abc.Set` (e.g. dict_keys); `ValuesView` is dict.values(). */
  datatype ContainerKind = List | Tuple | Set | FrozenSet | OtherSet | ValuesView

  /** What a constructor can be handed. */
  datatype Obj =
    | Item(v: Value)                                  // a scalar, or an opaque non-list-like object
    | NdArr(a: NdArray)
    | Masked(data: NdArray, mask: seq<bool>)          // numpy.ma.MaskedArray
    | ExtArr(e: ExtArray)
    | Boxed(box: BoxKind, backing: ExtArray)          // a Series or Index and its `.array`
    | Container(kind: ContainerKind, items: seq<Value>)
    | RangeObj(start: int, stop: int, step: int)
    | Iterable(items: seq<Value>)                     // any other list-like: generators, deques, ...
  {
    /** What Python and numpy guarantee of every such object: a `range`
        never has step zero, and a zero-dimensional array holds one item. */
    predicate Valid() {
      && (RangeObj? ==> step != 0)
      && (NdArr? && a.ndim == 0 ==> |a.values| == 1)
      && (Masked? && data.ndim == 0 ==> |data.values| == 1)
    }
  }

  /** `lib.is_scalar`: everything but list-likes and opaque objects. */
  predicate IsScalar(o: Obj) {
    o.Item? && !o.v.Object?
  }

  /** `is_list_like`, for inputs that are not zero-dimensional arrays. */
  predicate IsListLike(o: Obj) {
    !o.Item?
  }

  /** An intermediate or final result of casting: an ndarray, an
      ExtensionArray, or a plain Python list that no cast has turned into an
      array yet. */
  datatype Arr = Nd(a: NdArray) | Ea(e: ExtArray) | Plain(items: seq<Value>)

  /** The results library calls return that are always arrays. */
  type ArrayLike = a: Arr | !a.Plain? witness Nd(NdArray(ObjectDtype, [], 1))

  /** `getattr(result, "ndim", 0)`: a list has no `ndim`; every extension
      array is one-dimensional. */
  function Ndim(a: Arr): nat {
    match a
    case Nd(nd) => nd.ndim
    case Ea(_) => 1
    case Plain(_) => 0
  }

  /** The entries of a result along its first axis. */
  function Elements(a: Arr): seq<Value> {
    match a
    case Nd(nd) => nd.values
    case Ea(e) => e.values
    case Plain(items) => items
  }

  /** `len(result)`. */
  function Len(a: Arr): nat {
    |Elements(a)|
  }

  /** The same kind of result, dtype and dimensionality, holding `vs`. */
  function WithElements(a: Arr, vs: seq<Value>): (r: Arr)
    ensures Elements(r) == vs && Ndim(r) == Ndim(a)
  {
    match a
    case Nd(nd) => Nd(nd.(values := vs))
    case Ea(e) => Ea(e.(values := vs))
    case Plain(_) => Plain(vs)
  }

  /** The dtype of an array-like result. */
  function ArrDtype(a: ArrayLike): Dtype {
    match a
    case Nd(nd) => Np(nd.dtype)
    case Ea(e) => e.dtype
  }

  /** The Python object an intermediate result is when handed on. */
  function AsObj(a: Arr): Obj {
    match a
    case Nd(nd) => NdArr(nd)
    case Ea(e) => ExtArr(e)
    case Plain(items) => Container(List, items)
  }

  datatype ErrorClass =
    | ValueError
    | TypeError
    | IncompatibleFrequency   // subclass of ValueError
    | OutOfBoundsDatetime     // subclass of ValueError
    | OtherError(name: string)

  datatype Error = Error(cls: ErrorClass, msg: string)

  /** `isinstance(err, c)` under pandas' exception hierarchy. */
  predicate IsInstance(err: Error, c: ErrorClass) {
    err.cls == c
    || (c == ValueError && (err.cls == IncompatibleFrequency || err.cls == OutOfBoundsDatetime))
  }

  datatype Option<+T> = None | Some(value: T)

  /** A value or the exception that was raised instead. */
  datatype Result<+T> = Success(value: T) | Failure(error: Error) {
    predicate IsFailure() {
      Failure?
    }

    function PropagateFailure<U>(): Result<U>
      requires Failure?
    {
      Failure(error)
    }

    function Extract(): T
      requires Success?
    {
      value
    }
  }
}
